=== FILE: README.md ===
# QFS mount/registry and conditional-GET file handler, modelled in Dafny

This project models two small pieces of the CS194-24 repository.

**QFS** (`linux/fs/qfs.c`) is a Linux filesystem meant to hand every operation to a filesystem living in the hypervisor. The two sides talk through QRPC, a packed command frame written to a block device. As written, only the MOUNT handshake in `qfs_mount` talks to the peer; every other operation only logs and returns a constant. The model covers these parts:

- the frame and its byte layout;
- the open mode `qfs_mount` asks for;
- the ordered validation chain of `qfs_mount`, with each `panic` turned into a `MountError`;
- superblock and root-inode setup;
- the MOUNT handshake;
- `qfs_statfs`;
- the global inode list that `qfs_alloc_inode` links into.

Kernel services are fields of a `Kernel` record of oracles. These are `blkdev_get_by_path`, `qrpc_check_bdev`, `kmalloc`, the superblocks `sget` scans, the inode slab and the peer behind `qrpc_transfer`.

**The file mimetype of the HTTP server** (`httpd/mimetype_file.c`) serves a static file with ETag-based conditional GET. The model covers these parts:

- cutting the query string off the path;
- the ETag derived from `st_mtime`;
- the `If-None-Match:` scan, with its quirks;
- the choice between the 304 and the 200 header sequence;
- the partial-write loop and the cache string built from the written fragments.

The file system is a map from path to modification time and contents. The client's `write` and the `gmtime`/`strftime` formatting of a time are inputs. The Date line formats the file's own modification time.

Modules:

- `Wrappers`: Option and Result.
- `Qrpc`: the frame.
- `QfsRegistry`: the inode list.
- `QfsSuper`: mount and statfs.
- `CString`: strstr, strcmp and NUL truncation.
- `Decimal`: `%d` and the `(int)` cast.
- `HttpConditional`, `HttpBody` and `MimetypeFile`: `http_get`.

Four behaviours of the code are easy to misread, and the model keeps them as written:

- **Inode list.** `qfs_destroy_inode` and `qfs_evict_inode` only log; nothing ever unlinks a node from the global list. The list only grows (`QfsRegistry.ReplayOnlyGrows`).
- **One superblock.** `qfs_test_super` accepts every superblock, so `sget` returns the first live QFS superblock whatever the device is. While one QFS mount is live, every second mount fails. When its device path resolves, the device answers QRPC and the allocation succeeds, it fails with "reuse" (`QfsSuper.SecondMountRejected`). Otherwise it fails at the earlier check, as any mount would.
- **Failed handshake.** The MOUNT handshake runs after the root inode is allocated and the superblock is filled in, and a failed reply then panics. The model reports `HandshakeFailed` and returns no state.
- **Root file operations.** The root directory inode gets `qfs_file_operations`, not `qfs_dir_operations`. The model records this in `Inode.fileOps`.

## Model

| member | source | states |
|---|---|---|
| Qrpc.Encode | linux/fs/qfs.c:32-44 | the packed frame is 1026 bytes: cmd at offset 0, ret at offset 1, then the 1024 payload bytes in order |
| Qrpc.Decode | linux/fs/qfs.c:32-44 | exactly the 1026-byte sequences are frames, and re-encoding a decoded frame gives back the same bytes |
| Qrpc.DecodeEncode | linux/fs/qfs.c:32-44 | decoding an encoded frame gives back the frame: the layout loses no field |
| Qrpc.MountRequest | linux/fs/qfs.c:441-442 | the MOUNT request has command byte 1 and ret pre-set to ERR (1), which is not OK, and carries the stack payload unchanged |
| QfsRegistry.AllocInode | linux/fs/qfs.c:83-100 | a failed slab allocation returns NULL and leaves the list unchanged; otherwise the new node is at the head, the list grows by exactly one and the old list is its tail |
| QfsRegistry.ReleaseInode | linux/fs/qfs.c:124-132 | destroying or evicting a node unlinks nothing: same length, every node still present |
| QfsRegistry.ReplayOnlyGrows | linux/fs/qfs.c:83-132 | over any history of alloc/destroy/evict calls, the list grows by exactly the number of successful allocations, keeps the old list as its tail, and still holds every node ever handed out |
| QfsSuper.OpenMode | linux/fs/qfs.c:404-406 | the open mode always has READ and EXCL; it has WRITE exactly when MS_RDONLY is clear; it has no other bit |
| QfsSuper.StoreLoad | linux/fs/qfs.c:429 | reading bytes as a little-endian integer and storing it back gives the same bytes |
| QfsSuper.LoadStore | linux/fs/qfs.c:429 | storing an integer that fits in n bytes and reading it back gives the same integer |
| QfsSuper.MagicSpellsQrfs | linux/fs/qfs.c:429 | s_magic is the int whose in-memory bytes spell "QRFS", i.e. 0x53465251 |
| QfsSuper.Sget | linux/fs/qfs.c:380-389 | with a test that accepts every superblock, sget returns the first live superblock; only when there is none does it set up a fresh one, which has no root; that setup may fail |
| QfsSuper.MountReply | linux/fs/qfs.c:441-443 | the reply is the frame whose bytes the peer hands back for the encoded MOUNT request |
| QfsSuper.Mount | linux/fs/qfs.c:394-448 | the checks fail in order: bad device, not QRPC, allocation, sget, reused superblock, root inode allocation, handshake; each error is reported exactly when every earlier check passed and that one failed. A mount succeeds exactly when all checks pass and the peer's reply has ret OK. On success: the device is the one the path resolved to, blocksize 2048 = 2^blocksize_bits, the magic is QFS_MAGIC (the int spelling "QRFS", see MagicSpellsQrfs), the root is the node the inode slab handed out, inode 1 with mode S_IFDIR, and is the superblock's root, its file operations are `qfs_file_operations`, the recorded reply is the peer's answer to the MOUNT request, and the root node is at the head of a list that grew by one |
| QfsSuper.SilentPeerFailsMount | linux/fs/qfs.c:441-445 | a peer that leaves the ret byte untouched (whatever it does to the rest of the frame) leaves ret at ERR, so the mount never succeeds |
| QfsSuper.SecondMountRejected | linux/fs/qfs.c:420-425 | after a successful mount, while its superblock is live, every later mount fails, and when its device checks pass it fails with "reuse": a reused superblock is never accepted |
| QfsSuper.Statfs | linux/fs/qfs.c:306-316 | f_type is the superblock's magic; every other field is fixed: bsize 2048, namelen 255, 1 block, none free or available |
| QfsSuper.StatfsOfMountedQfs | linux/fs/qfs.c:306-316 | on a mounted QFS, statfs reports the QFS magic 0x53465251 and a bsize equal to the superblock's blocksize, with 1 block and none free or available |
| CString.Strstr | httpd/mimetype_file.c:66 | strstr returns the first index where the pattern occurs, and NULL exactly when it occurs nowhere |
| CString.Strcmp | httpd/mimetype_file.c:91 | strcmp returns 0 exactly when the two strings are equal, a negative value exactly when the first sorts before the second (a proper prefix, or smaller at the first difference), and a positive value exactly when it sorts after |
| CString.TakeUntilNul | httpd/mimetype_file.c:142 | strndup/strdup copy the longest NUL-free prefix, stopping at the first NUL |
| Decimal.ToInt32 | httpd/mimetype_file.c:77 | the (int) cast gives the unique 32-bit value congruent to the time modulo 2^32 |
| Decimal.NatToDecimal | httpd/mimetype_file.c:77 | "%d" of a non-negative value is a non-empty digit string without leading zeros |
| Decimal.FormatInt | httpd/mimetype_file.c:77 | "%d" output starts with '-' exactly for negative values; a non-negative value prints as digits with no leading zero (except "0" itself), a negative one as '-' then digits not starting with '0' |
| Decimal.FormatIntRoundTrip | httpd/mimetype_file.c:77 | parsing what "%d" printed gives back the integer |
| Decimal.FormatIntInjective | httpd/mimetype_file.c:77 | two integers print the same exactly when they are equal |
| HttpConditional.RealPath | httpd/mimetype_file.c:66-70 | real_path is a prefix of fullpath with no '?', and is followed by a '?' unless it is all of fullpath: the part before the first '?' |
| HttpConditional.EtagValue | httpd/mimetype_file.c:77 | the ETag is a double quote, then exactly the "%d" text of the 32-bit mtime, then a double quote |
| HttpConditional.EtagIdentifiesMtime | httpd/mimetype_file.c:74-77 | two modification times give the same ETag exactly when they agree as 32-bit ints |
| HttpConditional.EtagWrapsAround | httpd/mimetype_file.c:77 | times 2^32 seconds apart share an ETag, because of the (int) cast |
| HttpConditional.EtagHeader | httpd/mimetype_file.c:78 | the header is "ETag: ", then the ETag value, then CRLF |
| HttpConditional.DateHeader | httpd/mimetype_file.c:80 | the Date line is "Date: ", then the formatted time, then CRLF |
| HttpConditional.ConditionalValue | httpd/mimetype_file.c:91 | the compared text is what follows the first 15 characters of the header, the two together giving back the whole header |
| HttpConditional.LiveCount | httpd/mimetype_file.c:83-93 | the scan visits exactly the entries before the first NULL header |
| HttpConditional.ScanHeaders | httpd/mimetype_file.c:83-93 | etag_matches ends at 0 exactly when the last header before the first NULL that contains "If-None-Match: " anywhere has, from offset 15 on, exactly the ETag |
| HttpConditional.EtagMatchesStep | httpd/mimetype_file.c:90-91 | a qualifying header overrides every earlier verdict; a non-qualifying one leaves it unchanged |
| HttpConditional.NullHeaderEndsScan | httpd/mimetype_file.c:85-87 | headers after a NULL entry never change the verdict |
| HttpConditional.LastConditionalWins | httpd/mimetype_file.c:90-93 | when several headers qualify, the last one before the first NULL decides alone |
| HttpConditional.NotModifiedHeaders | httpd/mimetype_file.c:98-101 | the 304 response is four lines: the 304 status line, the ETag line, the Date line, the blank line |
| HttpConditional.OkHeaders | httpd/mimetype_file.c:106-111 | the 200 response is five lines: the 200 status line, Content-Type text/html, Cache-Control max-age=365, the ETag line, the blank line |
| HttpConditional.OnlyNotModifiedCarriesDate | httpd/mimetype_file.c:96-111 | the 304 and the 200 header sequences both carry the ETag line and end with the blank line, but only the 304 sequence has a Date line |
| HttpBody.AddFragment | httpd/mimetype_file.c:142-147 | the first fragment starts the cache string and later ones only extend it |
| HttpBody.CacheOfStep | httpd/mimetype_file.c:142-147 | the per-fragment strdup/append step builds the concatenation of the NUL-truncated fragments |
| HttpBody.AddFragmentsIsCacheOf | httpd/mimetype_file.c:142-147 | running the strdup/append step over further fragments gives the same cache string as if all fragments had been accumulated at once |
| HttpBody.AcceptedCoversOffer | httpd/mimetype_file.c:134-153 | offering the remaining bytes to `write` until none are left yields non-empty fragments that concatenate back to the offered bytes |
| HttpBody.WriteChunk | httpd/mimetype_file.c:134-153 | for a non-empty chunk and a client that always accepts something: written ends equal to readed, the fragments are exactly what successive `write` calls accepted, each offered the bytes not yet written (`Accepted`), at least one write was accepted, they concatenate to the chunk, and the cache is the strdup/append step run over every accepted fragment |
| HttpBody.CacheTextOfNulFree | httpd/mimetype_file.c:142-156 | when the written bytes hold no NUL, the cache text equals them |
| HttpBody.FileFragmentsCoverFile | httpd/mimetype_file.c:128-153 | reading the file in chunks of at most 4096 bytes and writing each chunk out yields fragments that concatenate back to the file, and none exactly for an empty file |
| HttpBody.SendFile | httpd/mimetype_file.c:128-157 | the fragments are exactly those of reading the file in 4096-byte chunks and offering each chunk to `write` until accepted (`FileFragments`); they concatenate to the file contents (nothing when open fails), the cache is the concatenation of the NUL-truncated fragments, it is NULL exactly for an empty or unopened file, and for NUL-free contents it equals the contents |
| HttpBody.CacheDependsOnWriteSplit | httpd/mimetype_file.c:142 | with a NUL in the file, the cached text depends on how the client split the writes |
| MimetypeFile.StatMtime | httpd/mimetype_file.c:75 | the modification time is the file's when the path exists, and the untouched struct's value otherwise |
| MimetypeFile.Open | httpd/mimetype_file.c:128-130 | opening succeeds exactly for an existing path, and reading then yields that file's contents |
| MimetypeFile.MimetypeFileNew | httpd/mimetype_file.c:21-35 | the handler exists exactly when allocation succeeds, and keeps the given path |
| MimetypeFile.HttpGet | httpd/mimetype_file.c:37-162 | a non-file mimetype returns -1 with no output. Otherwise it returns 0. On an ETag match it sends exactly the 304 lines, whose Date line formats the file's modification time, no body and no cache entry. Otherwise it sends exactly the 200 lines, then as the body exactly the fragments `write` accepted while the file at real_path was sent in 4096-byte chunks, and caches under real_path the text built from the written fragments |
| MimetypeFile.ConditionalGetScenario | httpd/mimetype_file.c:83-104 | a single If-None-Match header with the current ETag matches; a request without one does not |

## Left out

- QfsSuper.Mount: `d_make_root`, `iget_locked`'s inode-hash lookup and `unlock_new_inode` are not modelled. The root is always a fresh node from the inode slab, and `d_make_root` is assumed to succeed.
- QfsSuper.Mount: `iget_locked` returning NULL is dereferenced unchecked in the C. The model reports it as `RootInodeAllocFailed`.
- QfsSuper.Mount: the operation tables (`s_op`, `s_d_op`, `i_op`) are not recorded. Only the root's file-operations table is kept.
- QfsSuper.Mount: the reply is read as a whole frame, but only its `ret` byte decides the outcome, as in the C.
- `qrpc_transfer` and `qrpc_check_bdev` are defined outside `qfs.c`, which only declares them `extern`. They are modelled as oracle fields of `Kernel`.
- The UMOUNT command is defined but no code path sends it, since `kill_sb` is the generic `kill_anon_super`. It appears only as the constant `CMD_UMOUNT`; INIT likewise appears only as `CMD_INIT`.
- Slab cache creation (`qfs_init`), the slab constructor `qfs_inode_init` (zeroing, `backing_fd`) and module registration are not modelled. They are kernel glue with no observable logic here.
- QfsRegistry.ReplayOnlyGrows: `list_add` in `qfs_alloc_inode` runs without taking `list_mutex`, which is declared but never initialised or taken. The model replays alloc/destroy/evict calls one at a time, so it assumes the calls are serialised. Concurrent `qfs_alloc_inode` calls racing on the list are not modelled.
- The dentry, directory, file and inode operations are stubs that log and return 0 or NULL. Apart from `qfs_lookup`, they carry no behaviour beyond those constants. `qfs_lookup` first runs `BUG_ON(dentry->d_inode != NULL)`, so a lookup of a dentry that already has an inode oopses; otherwise it returns NULL. Neither the stubs nor that check are modelled. This covers revalidate, delete, release, automount, open, readdir, llseek, read, write, fsync, lock, flock, create, lookup, link, unlink, symlink, mkdir, rmdir, rename, permission, getattr, setattr and show_options.
- Logging (`printk`, `DEBUG`) is not modelled.
- `stat`, `gmtime` and `strftime` are not modelled. The modification time comes from the file map, or from a parameter when `stat` fails and leaves the struct uninitialised. `strftime(gmtime(t))` is an opaque function `formatTime`, applied to that modification time.
- The `open`/`read`/`close` system calls are modelled as the file map. A file that exists reads back its whole contents in chunks of `BUF_COUNT`; one that does not reads nothing.
- MimetypeFile.HttpGet: `cache_lookup`, `cache_add` and `palloc` are defined outside `mimetype_file.c` (in the cache and pool modules) and are not modelled. The model takes the cache-miss path and returns the `cache_add` arguments.
- MimetypeFile.HttpGet: the cache-hit branch writes from the uninitialised `buf` rather than from the cached text, so it is a defect rather than behaviour. It is not modelled.
- MimetypeFile.HttpGet: `close(fd)` runs on an uninitialised `fd` on the cache-hit path. It is not modelled.
- HttpBody.WriteChunk: the client's `write` is assumed always to accept between 1 and all of the offered bytes. When `write` returns 0 or an error, the C retries forever, ignoring errno. That non-terminating case is excluded by precondition.
- HttpBody.SendFile: same assumption about `write` as for WriteChunk.
- HttpBody.WriteChunk: the client's `write` (the type `Writer`) is a function of the bytes offered, so how much it accepts depends only on those bytes, not on time, socket state or earlier calls. A client whose acceptance varies between identical offers is not modelled.
- HttpConditional.ConditionalValue: headers, file contents and write counts are modelled as characters, while the C works on bytes. The offset 15 and the `write` counts are character counts here; they agree with the C for single-byte text only.
- CString.Strstr: paths and headers are modelled as `string`, which may hold a NUL, while a C string ends at its first NUL. `Strstr`, `Strcmp`, `HttpConditional.RealPath` and `HttpConditional.ScanHeaders` treat an embedded NUL as an ordinary character, where the C would stop at it. A real C string never holds one, so this only changes the answer for inputs the C cannot receive; no contract requires NUL-free arguments.
- QfsSuper.MagicSpellsQrfs: `s_magic` is read from "QRFS" as a little-endian 32-bit int, as on a little-endian host such as x86. A big-endian host would get 0x51524653 instead.
- MimetypeFile.HttpGet: same assumption about `write` as for WriteChunk.
- MimetypeFile.MimetypeFileNew: a failing `palloc_strdup` of the path is not modelled. The source does not check it.
- HttpConditional.ScanHeaders: `strcmp` returns -1, 0 or 1 here; the C only promises the sign, and `http_get` only tests for zero. The header list must be non-empty, since the C dereferences its first entry unconditionally.

=== FILE: cstring.dfy ===
/**
 * The C string functions the HTTP file handler (httpd/mimetype_file.c)
 * relies on, over `string`: strstr, strcmp, and the NUL truncation
 * performed by strdup/strndup. Headers and paths reach the handler as C
 * strings and so hold no NUL; here an embedded NUL would be an ordinary
 * character. File contents may hold NULs.
 */
module CString {
  import opened Wrappers

  const NUL: char := '\0'

  predicate NulFree(s: string) {
    forall i :: 0 <= i < |s| ==> s[i] != NUL
  }

  /** `p` occurs in `h` starting at index k. */
  predicate OccursAt(h: string, p: string, k: int) {
    0 <= k && k + |p| <= |h| && h[k..k + |p|] == p
  }

  /** strstr(h, p): the index of the first occurrence of p in h, or NULL. */
  function Strstr(h: string, p: string): (r: Option<nat>)
    ensures r.Some? ==> OccursAt(h, p, r.value)
    ensures r.Some? ==> forall k :: 0 <= k < r.value ==> !OccursAt(h, p, k)
    ensures r.None? ==> forall k :: !OccursAt(h, p, k)
  {
    StrstrFrom(h, p, 0)
  }

  function StrstrFrom(h: string, p: string, i: nat): (r: Option<nat>)
    ensures r.Some? ==> i <= r.value && OccursAt(h, p, r.value)
    ensures r.Some? ==> forall k :: i <= k < r.value ==> !OccursAt(h, p, k)
    ensures r.None? ==> forall k :: i <= k ==> !OccursAt(h, p, k)
    decreases |h| - i
  {
    if i + |p| > |h| then None
    else if h[i..i + |p|] == p then Some(i)
    else StrstrFrom(h, p, i + 1)
  }

  /** `p` appears somewhere in `h`. */
  predicate Contains(h: string, p: string) {
    Strstr(h, p).Some?
  }

  /** A string that contains `p` is at least as long as `p`. */
  lemma ContainsIsLonger(h: string, p: string)
    requires Contains(h, p)
    ensures |p| <= |h|
  {
  }

  /**
   * a sorts before b in strcmp's order: a is a proper prefix of b (its
   * terminating NUL is below every other character), or a is smaller at the
   * first position where the two differ.
   */
  predicate SortsBefore(a: string, b: string) {
    exists i :: 0 <= i <= |a| && i <= |b| && a[..i] == b[..i] && FirstDifference(a, b, i)
  }

  /** Position i, where a and b agree before it, decides that a sorts first. */
  predicate FirstDifference(a: string, b: string, i: int)
    requires 0 <= i <= |a| && i <= |b|
  {
    if i == |a| then i < |b| else i < |b| && a[i] < b[i]
  }

  /** Equal first characters leave the order to the tails. */
  lemma SortsBeforeTail(a: string, b: string)
    requires |a| > 0 && |b| > 0 && a[0] == b[0]
    ensures SortsBefore(a, b) <==> SortsBefore(a[1..], b[1..])
  {
    if SortsBefore(a, b) {
      var i :| 0 <= i <= |a| && i <= |b| && a[..i] == b[..i] && FirstDifference(a, b, i);
      assert a[1..][..i - 1] == a[1..i] == b[1..i] == b[1..][..i - 1];
      assert FirstDifference(a[1..], b[1..], i - 1);
    }
    if SortsBefore(a[1..], b[1..]) {
      var i :| 0 <= i <= |a[1..]| && i <= |b[1..]| && a[1..][..i] == b[1..][..i] && FirstDifference(a[1..], b[1..], i);
      assert a[..i + 1] == [a[0]] + a[1..][..i] == [b[0]] + b[1..][..i] == b[..i + 1];
      assert FirstDifference(a, b, i + 1);
    }
  }

  /** Different first characters decide the order alone. */
  lemma SortsBeforeHead(a: string, b: string)
    requires |a| > 0 && |b| > 0 && a[0] != b[0]
    ensures SortsBefore(a, b) <==> a[0] < b[0]
  {
    if a[0] < b[0] {
      assert FirstDifference(a, b, 0);
    }
  }

  /** The empty string sorts before every other string, and nothing sorts before it. */
  lemma SortsBeforeEmpty(a: string)
    ensures SortsBefore([], a) <==> |a| > 0
    ensures !SortsBefore(a, [])
  {
    if |a| > 0 {
      assert FirstDifference([], a, 0);
    }
  }

  /**
   * strcmp(a, b) on NUL-free strings: negative, zero or positive as a sorts
   * before, equal to, or after b.
   */
  function Strcmp(a: string, b: string): (r: int)
    ensures r == 0 <==> a == b
    ensures r < 0 <==> SortsBefore(a, b)
    ensures r > 0 <==> SortsBefore(b, a)
    ensures -1 <= r <= 1
    decreases |a|
  {
    SortsBeforeEmpty(a);
    SortsBeforeEmpty(b);
    if |a| == 0 && |b| == 0 then 0
    else if |a| == 0 then -1
    else if |b| == 0 then 1
    else if a[0] != b[0] then
      SortsBeforeHead(a, b);
      SortsBeforeHead(b, a);
      if a[0] < b[0] then -1 else 1
    else
      var r := Strcmp(a[1..], b[1..]);
      SortsBeforeTail(a, b);
      SortsBeforeTail(b, a);
      assert r == 0 ==> a == [a[0]] + a[1..] == [b[0]] + b[1..] == b;
      r
  }

  /** What strdup/strndup copy: the characters before the first NUL. */
  function TakeUntilNul(s: string): (r: string)
    ensures r <= s && NulFree(r)
    ensures |r| < |s| ==> s[|r|] == NUL
  {
    if |s| == 0 || s[0] == NUL then [] else [s[0]] + TakeUntilNul(s[1..])
  }

  lemma TakeUntilNulOfNulFree(s: string)
    requires NulFree(s)
    ensures TakeUntilNul(s) == s
  {
  }

  /** The concatenation of the pieces, first to last. */
  function Flatten(pieces: seq<string>): string
  {
    if |pieces| == 0 then [] else Flatten(pieces[..|pieces| - 1]) + pieces[|pieces| - 1]
  }

  lemma {:induction false} FlattenAppend(a: seq<string>, b: seq<string>)
    ensures Flatten(a + b) == Flatten(a) + Flatten(b)
    decreases |b|
  {
    if |b| > 0 {
      var b' := b[..|b| - 1];
      assert (a + b)[..|a + b| - 1] == a + b';
      FlattenAppend(a, b');
    } else {
      assert a + b == a;
    }
  }
}

=== FILE: decimal.dfy ===
/**
 * Decimal rendering of `(int) file_info.st_mtime` with "%d"
 * (httpd/mimetype_file.c), together with its inverse, and the narrowing of
 * a 64-bit time_t to a 32-bit int.
 */
module Decimal {
  import opened Wrappers

  const INT32_MODULUS: int := 0x1_0000_0000
  const INT32_MIN: int := -0x8000_0000
  const INT32_MAX: int := 0x7fff_ffff

  /** The (int) cast of a wider integer: two's-complement wrap-around to 32 bits. */
  function ToInt32(t: int): (r: int)
    ensures INT32_MIN <= r <= INT32_MAX
    ensures (t - r) % INT32_MODULUS == 0
  {
    (t - INT32_MIN) % INT32_MODULUS + INT32_MIN
  }

  /** Two values that differ by a multiple of 2^32 narrow to the same int. */
  lemma ToInt32Periodic(t: int, k: int)
    ensures ToInt32(t + k * INT32_MODULUS) == ToInt32(t)
  {
    var a := ToInt32(t);
    var b := ToInt32(t + k * INT32_MODULUS);
    assert (a - b) % INT32_MODULUS == 0 by {
      assert a - b == (t + k * INT32_MODULUS - b) - (t - a) - k * INT32_MODULUS;
    }
  }

  predicate IsDigit(c: char) {
    '0' <= c <= '9'
  }

  predicate AllDigits(s: string) {
    forall i :: 0 <= i < |s| ==> IsDigit(s[i])
  }

  function DigitChar(d: nat): (c: char)
    requires d < 10
    ensures IsDigit(c)
  {
    ('0' as int + d) as char
  }

  function DigitValue(c: char): (d: nat)
    requires IsDigit(c)
    ensures d < 10
  {
    c as int - '0' as int
  }

  /** The digits of n, most significant first, without leading zeros. */
  function NatToDecimal(n: nat): (s: string)
    ensures |s| >= 1 && AllDigits(s)
    ensures |s| > 1 ==> s[0] != '0'
    ensures n > 0 ==> s[0] != '0'
    decreases n
  {
    if n < 10 then [DigitChar(n)] else NatToDecimal(n / 10) + [DigitChar(n % 10)]
  }

  /** The number a string of digits denotes. */
  function DecimalToNat(s: string): nat
    requires AllDigits(s)
  {
    if |s| == 0 then 0 else 10 * DecimalToNat(s[..|s| - 1]) + DigitValue(s[|s| - 1])
  }

  lemma {:induction false} NatDecimalRoundTrip(n: nat)
    ensures DecimalToNat(NatToDecimal(n)) == n
    decreases n
  {
    if n >= 10 {
      var s := NatToDecimal(n);
      assert s[..|s| - 1] == NatToDecimal(n / 10);
      NatDecimalRoundTrip(n / 10);
    }
  }

  /** printf("%d", n). */
  function FormatInt(n: int): (s: string)
    ensures |s| >= 1
    ensures n < 0 <==> s[0] == '-'
    ensures n >= 0 ==> AllDigits(s) && (|s| > 1 ==> s[0] != '0')
    ensures n < 0 ==> |s| >= 2 && AllDigits(s[1..]) && s[1] != '0'
  {
    if n < 0 then "-" + NatToDecimal(-n) else NatToDecimal(n)
  }

  /** The inverse of FormatInt: an optional '-' followed by at least one digit. */
  function ParseInt(s: string): Option<int>
  {
    if |s| >= 2 && s[0] == '-' && AllDigits(s[1..]) then Some(0 - DecimalToNat(s[1..]) as int)
    else if |s| >= 1 && AllDigits(s) then Some(DecimalToNat(s))
    else None
  }

  lemma FormatIntRoundTrip(n: int)
    ensures ParseInt(FormatInt(n)) == Some(n)
  {
    var s := FormatInt(n);
    if n < 0 {
      var d := NatToDecimal(-n);
      assert s[1..] == d;
      NatDecimalRoundTrip(-n);
      assert ParseInt(s) == Some(0 - DecimalToNat(d) as int);
    } else {
      NatDecimalRoundTrip(n);
      assert ParseInt(s) == Some(DecimalToNat(NatToDecimal(n)) as int);
    }
  }

  /** Distinct integers print differently. */
  lemma FormatIntInjective(a: int, b: int)
    ensures FormatInt(a) == FormatInt(b) <==> a == b
  {
    FormatIntRoundTrip(a);
    FormatIntRoundTrip(b);
  }
}

=== FILE: http_body.dfy ===
/**
 * The body of a full response in http_get (httpd/mimetype_file.c): the file
 * is read in chunks of up to BUF_COUNT bytes, each chunk is pushed to the
 * client with repeated partial writes, and every accepted fragment is
 * appended to the string that is later handed to the cache. Fragments are
 * copied with strndup, so each is cut at its first NUL.
 */
module HttpBody {
  import opened Wrappers
  import opened CString

  const BUF_COUNT: nat := 4096

  /** The client's write: given the bytes still to send, how many it accepts. */
  type Writer = string -> int

  /**
   * Every write accepts at least one and at most all of the offered bytes.
   * Without the lower bound the C loops forever, since it retries a write that
   * returned 0 or an error.
   */
  ghost predicate WriteMakesProgress(write: Writer) {
    forall s: string {:trigger write(s)} :: |s| > 0 ==> 0 < write(s) <= |s|
  }

  /** The text the cache accumulates from the fragments: each cut at its first NUL, concatenated. */
  function CacheText(fragments: seq<string>): string
  {
    if |fragments| == 0 then []
    else CacheText(fragments[..|fragments| - 1]) + TakeUntilNul(fragments[|fragments| - 1])
  }

  /** cache_hit after the fragments were written: NULL until the first one. */
  function CacheOf(fragments: seq<string>): Option<string>
  {
    if |fragments| == 0 then None else Some(CacheText(fragments))
  }

  /** One accumulation step as the C performs it: strdup the first fragment, append the later ones. */
  function AddFragment(cache: Option<string>, fragment: string): (r: Option<string>)
    ensures r.Some?
    ensures cache.Some? ==> cache.value <= r.value
  {
    var copy := TakeUntilNul(fragment);
    match cache
    case None => Some(TakeUntilNul(copy))
    case Some(c) => Some(c + copy)
  }

  lemma CacheOfStep(fragments: seq<string>, fragment: string)
    ensures CacheOf(fragments + [fragment]) == AddFragment(CacheOf(fragments), fragment)
  {
    var all := fragments + [fragment];
    assert all[..|all| - 1] == fragments;
    assert CacheText(all) == CacheText(fragments) + TakeUntilNul(fragment);
    TakeUntilNulOfNulFree(TakeUntilNul(fragment));
    if |fragments| == 0 {
      assert CacheText(fragments) + TakeUntilNul(fragment) == TakeUntilNul(fragment);
      assert TakeUntilNul(TakeUntilNul(fragment)) == TakeUntilNul(fragment);
    }
  }

  /** The cache string after the C's accumulation step ran on each fragment in turn. */
  function AddFragments(cache: Option<string>, fragments: seq<string>): Option<string>
  {
    if |fragments| == 0 then cache
    else AddFragment(AddFragments(cache, fragments[..|fragments| - 1]), fragments[|fragments| - 1])
  }

  /** Accumulating fragment by fragment builds exactly the cache text of all fragments written so far. */
  lemma {:induction false} AddFragmentsIsCacheOf(sent: seq<string>, fragments: seq<string>)
    ensures AddFragments(CacheOf(sent), fragments) == CacheOf(sent + fragments)
    decreases |fragments|
  {
    if |fragments| == 0 {
      assert sent + fragments == sent;
    } else {
      var init, last := fragments[..|fragments| - 1], fragments[|fragments| - 1];
      AddFragmentsIsCacheOf(sent, init);
      CacheOfStep(sent + init, last);
      assert sent + init + [last] == sent + fragments;
    }
  }

  /**
   * The fragments the client accepts when `rest` is offered, then what it
   * left, and so on until nothing is left: each one is the prefix of the
   * offered bytes whose length the write returned.
   */
  function Accepted(write: Writer, rest: string): seq<string>
    requires WriteMakesProgress(write)
    decreases |rest|
  {
    if |rest| == 0 then []
    else
      var w := write(rest);
      [rest[..w]] + Accepted(write, rest[w..])
  }

  /** The accepted fragments are non-empty and together are the offered bytes, once each, in order. */
  lemma {:induction false} AcceptedCoversOffer(write: Writer, rest: string)
    requires WriteMakesProgress(write)
    ensures Flatten(Accepted(write, rest)) == rest
    ensures forall k :: 0 <= k < |Accepted(write, rest)| ==> |Accepted(write, rest)[k]| > 0
    decreases |rest|
  {
    if |rest| > 0 {
      var w := write(rest);
      var tail := Accepted(write, rest[w..]);
      AcceptedCoversOffer(write, rest[w..]);
      FlattenAppend([rest[..w]], tail);
      assert [rest[..w]][..0] == [];
      assert Flatten([rest[..w]]) == rest[..w];
      assert rest[..w] + rest[w..] == rest;
    }
  }

  /** Offering the rest of a chunk once more: one fragment is accepted, the rest is offered next. */
  lemma AcceptedUnfold(write: Writer, chunk: string, written: nat)
    requires WriteMakesProgress(write)
    requires written < |chunk|
    ensures 0 < write(chunk[written..]) <= |chunk| - written
    ensures var w := write(chunk[written..]);
      Accepted(write, chunk[written..]) == [chunk[written..written + w]] + Accepted(write, chunk[written + w..])
  {
    var w := write(chunk[written..]);
    assert chunk[written..][..w] == chunk[written..written + w];
    assert chunk[written..][w..] == chunk[written + w..];
  }

  /** The loop's account of the fragments so far stays exact after one more accepted write. */
  lemma AcceptedStep(write: Writer, chunk: string, written: nat, fragments: seq<string>, whole: seq<string>)
    requires WriteMakesProgress(write)
    requires written < |chunk|
    requires fragments + Accepted(write, chunk[written..]) == whole
    ensures 0 < write(chunk[written..]) <= |chunk| - written
    ensures var w := write(chunk[written..]);
      (fragments + [chunk[written..written + w]]) + Accepted(write, chunk[written + w..]) == whole
  {
    AcceptedUnfold(write, chunk, written);
    var w := write(chunk[written..]);
    ConcatAssoc(fragments, [chunk[written..written + w]], Accepted(write, chunk[written + w..]));
  }

  /** Once the whole chunk was accepted, nothing is left to offer. */
  lemma AcceptedAll(write: Writer, chunk: string, fragments: seq<string>, whole: seq<string>)
    requires WriteMakesProgress(write)
    requires fragments + Accepted(write, chunk[|chunk|..]) == whole
    ensures fragments == whole
  {
    assert Accepted(write, chunk[|chunk|..]) == [];
    assert fragments + [] == fragments;
  }

  lemma ConcatAssoc<T>(a: seq<T>, b: seq<T>, c: seq<T>)
    ensures (a + b) + c == a + (b + c)
  {
  }

  /** The bookkeeping of one write that accepted w > 0 bytes at offset `written`. */
  lemma AcceptedWrite(chunk: string, written: nat, w: nat, fragments: seq<string>, cache: Option<string>)
    requires 0 < w && written + w <= |chunk|
    requires Flatten(fragments) == chunk[..written]
    ensures Flatten(fragments + [chunk[written..written + w]]) == chunk[..written + w]
    ensures AddFragments(cache, fragments + [chunk[written..written + w]])
            == AddFragment(AddFragments(cache, fragments), chunk[written..written + w])
  {
    var fragment := chunk[written..written + w];
    assert (fragments + [fragment])[..|fragments|] == fragments;
    assert chunk[..written] + fragment == chunk[..written + w];
  }

  /**
   * The inner loop for one chunk (readed > 0 bytes): offers chunk[written..]
   * until all of it is accepted, adding each accepted fragment to `cache`.
   */
  method WriteChunk(chunk: string, write: Writer, cache: Option<string>)
    returns (written: nat, fragments: seq<string>, cache': Option<string>)
    requires |chunk| > 0
    requires WriteMakesProgress(write)
    ensures written == |chunk|
    ensures fragments == Accepted(write, chunk)
    ensures |fragments| > 0
    ensures Flatten(fragments) == chunk
    ensures cache' == AddFragments(cache, fragments)
  {
    written := 0;
    fragments := [];
    cache' := cache;
    ghost var whole := Accepted(write, chunk);
    while written < |chunk|
      invariant written <= |chunk|
      invariant Flatten(fragments) == chunk[..written]
      invariant fragments + Accepted(write, chunk[written..]) == whole
      invariant written > 0 ==> |fragments| > 0
      invariant cache' == AddFragments(cache, fragments)
      decreases |chunk| - written
    {
      var w := write(chunk[written..]);
      if w > 0 {
        var fragment := chunk[written..written + w];
        AcceptedWrite(chunk, written, w, fragments, cache);
        AcceptedStep(write, chunk, written, fragments, whole);
        cache' := AddFragment(cache', fragment);
        fragments := fragments + [fragment];
        written := written + w;
      }
    }
    AcceptedAll(write, chunk, fragments, whole);
  }

  /** What read() delivers from the opened file; nothing when open failed. */
  function FileBytes(file: Option<string>): string
  {
    if file.Some? then file.value else []
  }

  lemma {:induction false} CacheTextOfNulFree(fragments: seq<string>)
    requires NulFree(Flatten(fragments))
    ensures CacheText(fragments) == Flatten(fragments)
  {
    if |fragments| > 0 {
      var init, last := fragments[..|fragments| - 1], fragments[|fragments| - 1];
      assert Flatten(fragments) == Flatten(init) + last;
      assert NulFree(Flatten(init)) && NulFree(last) by {
        assert forall i :: 0 <= i < |Flatten(init)| ==> Flatten(init)[i] == Flatten(fragments)[i];
        assert forall i :: 0 <= i < |last| ==> last[i] == Flatten(fragments)[|Flatten(init)| + i];
      }
      CacheTextOfNulFree(init);
      TakeUntilNulOfNulFree(last);
    }
  }

  /** How many bytes one read() delivers when `left` bytes of the file remain. */
  function ReadSize(left: nat): nat
  {
    if left < BUF_COUNT then left else BUF_COUNT
  }

  /**
   * The fragments the client accepts for the whole of `c`: the file is read
   * in BUF_COUNT-byte chunks and each chunk is offered until it is taken.
   */
  function FileFragments(write: Writer, c: string): seq<string>
    requires WriteMakesProgress(write)
    decreases |c|
  {
    if |c| == 0 then []
    else Accepted(write, c[..ReadSize(|c|)]) + FileFragments(write, c[ReadSize(|c|)..])
  }

  /** The fragments for the whole file are the file's bytes, once each, in order; there are none exactly for an empty file. */
  lemma {:induction false} FileFragmentsCoverFile(write: Writer, c: string)
    requires WriteMakesProgress(write)
    ensures Flatten(FileFragments(write, c)) == c
    ensures |FileFragments(write, c)| == 0 <==> |c| == 0
    decreases |c|
  {
    if |c| > 0 {
      var n := ReadSize(|c|);
      var head, rest := Accepted(write, c[..n]), FileFragments(write, c[n..]);
      AcceptedCoversOffer(write, c[..n]);
      FileFragmentsCoverFile(write, c[n..]);
      FlattenAppend(head, rest);
      assert c[..n] + c[n..] == c;
      assert |head| > 0;
    }
  }

  /** The send loop's account of the fragments so far stays exact after one more chunk. */
  lemma FileFragmentsStep(write: Writer, c: string, pos: nat, sent: seq<string>, whole: seq<string>)
    requires WriteMakesProgress(write)
    requires pos < |c|
    requires sent + FileFragments(write, c[pos..]) == whole
    ensures var n := ReadSize(|c| - pos);
      (sent + Accepted(write, c[pos..pos + n])) + FileFragments(write, c[pos + n..]) == whole
  {
    var n := ReadSize(|c| - pos);
    assert c[pos..][..n] == c[pos..pos + n];
    assert c[pos..][n..] == c[pos + n..];
    assert FileFragments(write, c[pos..]) == Accepted(write, c[pos..pos + n]) + FileFragments(write, c[pos + n..]);
    ConcatAssoc(sent, Accepted(write, c[pos..pos + n]), FileFragments(write, c[pos + n..]));
  }

  /** One chunk sent: the account of the fragments and the cache string both stay exact. */
  lemma ChunkSent(write: Writer, c: string, pos: nat, sent: seq<string>, fragments: seq<string>, whole: seq<string>)
    requires WriteMakesProgress(write)
    requires pos < |c|
    requires sent + FileFragments(write, c[pos..]) == whole
    requires fragments == Accepted(write, c[pos..pos + ReadSize(|c| - pos)])
    ensures (sent + fragments) + FileFragments(write, c[pos + ReadSize(|c| - pos)..]) == whole
    ensures AddFragments(CacheOf(sent), fragments) == CacheOf(sent + fragments)
  {
    FileFragmentsStep(write, c, pos, sent, whole);
    AddFragmentsIsCacheOf(sent, fragments);
  }

  /** Once the whole file was read, no fragment is left to come. */
  lemma FileFragmentsAll(write: Writer, c: string, sent: seq<string>, whole: seq<string>)
    requires WriteMakesProgress(write)
    requires sent + FileFragments(write, c[|c|..]) == whole
    ensures sent == whole
  {
    assert FileFragments(write, c[|c|..]) == [];
    assert sent + [] == sent;
  }

  /** What the cache string is once every fragment of the file was accepted. */
  lemma SentFileCache(write: Writer, c: string)
    requires WriteMakesProgress(write)
    ensures Flatten(FileFragments(write, c)) == c
    ensures CacheOf(FileFragments(write, c)).None? <==> |c| == 0
    ensures NulFree(c) && |c| > 0 ==> CacheOf(FileFragments(write, c)) == Some(c)
  {
    FileFragmentsCoverFile(write, c);
    if NulFree(c) {
      CacheTextOfNulFree(FileFragments(write, c));
    }
  }

  /**
   * The read/write loops of a cache miss: `file` is the file's contents, or
   * None when open failed (read then fails at once). Returns the fragments
   * the client accepted, in order, and the cache string built from them.
   */
  method SendFile(file: Option<string>, write: Writer) returns (sent: seq<string>, cache: Option<string>)
    requires WriteMakesProgress(write)
    ensures sent == FileFragments(write, FileBytes(file))
    ensures Flatten(sent) == FileBytes(file)
    ensures cache == CacheOf(sent)
    ensures cache.None? <==> |FileBytes(file)| == 0
    ensures NulFree(FileBytes(file)) && |FileBytes(file)| > 0 ==> cache == Some(FileBytes(file))
  {
    sent, cache := [], None;
    var c := FileBytes(file);
    var pos := 0;
    ghost var whole := FileFragments(write, c);
    while pos < |c|
      invariant pos <= |c|
      invariant sent + FileFragments(write, c[pos..]) == whole
      invariant cache == CacheOf(sent)
      decreases |c| - pos
    {
      var readed := ReadSize(|c| - pos);
      var written, fragments;
      written, fragments, cache := WriteChunk(c[pos..pos + readed], write, cache);
      ChunkSent(write, c, pos, sent, fragments, whole);
      sent := sent + fragments;
      pos := pos + readed;
    }
    FileFragmentsAll(write, c, sent, whole);
    SentFileCache(write, c);
  }

  /**
   * The cached text depends on how the client split the writes once the file
   * holds a NUL: the same bytes cached from one write or from two differ.
   */
  lemma CacheDependsOnWriteSplit()
    ensures Flatten(["a\0b"]) == Flatten(["a\0", "b"])
    ensures CacheText(["a\0b"]) == "a"
    ensures CacheText(["a\0", "b"]) == "ab"
  {
    assert ["a\0", "b"][..1] == ["a\0"];
    assert Flatten(["a\0"]) == "a\0";
  }
}

=== FILE: http_conditional.dfy ===
/**
 * The conditional-GET part of http_get (httpd/mimetype_file.c): the query
 * string is cut off the request path, an ETag is derived from the file's
 * modification time, the request headers are scanned for If-None-Match, and
 * either the 304 or the 200 header sequence is chosen.
 */
module HttpConditional {
  import opened Wrappers
  import opened CString
  import opened Decimal

  const IF_NONE_MATCH: string := "If-None-Match: "

  /** The path without its query string: everything before the first '?'. */
  function RealPath(fullpath: string): (r: string)
    ensures r <= fullpath
    ensures '?' !in r
    ensures |r| < |fullpath| ==> fullpath[|r|] == '?'
  {
    match Strstr(fullpath, "?")
    case None =>
      assert forall k :: 0 <= k < |fullpath| ==> OccursAt(fullpath, "?", k) == (fullpath[k] == '?');
      fullpath
    case Some(q) =>
      assert forall k :: 0 <= k < q ==> OccursAt(fullpath, "?", k) == (fullpath[k] == '?');
      assert fullpath[q..q + 1] == "?";
      fullpath[..q]
  }

  /** The ETag value: the 32-bit modification time in decimal, in double quotes. */
  function EtagValue(mtime: int): (v: string)
    ensures |v| >= 3 && v[0] == '"' && v[|v| - 1] == '"'
    ensures ParseInt(v[1..|v| - 1]) == Some(ToInt32(mtime))
    ensures v[1..|v| - 1] == FormatInt(ToInt32(mtime))
  {
    var digits := FormatInt(ToInt32(mtime));
    FormatIntRoundTrip(ToInt32(mtime));
    assert ("\"" + digits + "\"")[1..|digits| + 1] == digits;
    "\"" + digits + "\""
  }

  /** Two modification times give the same ETag exactly when they agree as 32-bit ints. */
  lemma EtagIdentifiesMtime(a: int, b: int)
    ensures EtagValue(a) == EtagValue(b) <==> ToInt32(a) == ToInt32(b)
  {
    var va, vb := EtagValue(a), EtagValue(b);
    if va == vb {
      assert va[1..|va| - 1] == vb[1..|vb| - 1];
    }
  }

  /** The narrowing cast makes times 2^32 seconds apart share an ETag. */
  lemma EtagWrapsAround(t: int)
    ensures EtagValue(t + INT32_MODULUS) == EtagValue(t)
  {
    ToInt32Periodic(t, 1);
  }

  function EtagHeader(mtime: int): (h: string)
    ensures |h| >= 8 && h[..6] == "ETag: " && h[|h| - 2..] == "\r\n"
    ensures h[6..|h| - 2] == EtagValue(mtime)
  {
    "ETag: " + EtagValue(mtime) + "\r\n"
  }

  /** The Date line; the formatted time itself is left opaque. */
  function DateHeader(date: string): (h: string)
    ensures |h| >= 8 && h[..6] == "Date: " && h[|h| - 2..] == "\r\n"
    ensures h[6..|h| - 2] == date
  {
    "Date: " + date + "\r\n"
  }

  /** The request headers: the `next` chain in order, None for an entry whose `header` is NULL. */
  type HeaderList = seq<Option<string>>

  /** How many entries the scan visits: those before the first NULL header. */
  function LiveCount(hs: HeaderList): (n: nat)
    ensures n <= |hs|
    ensures forall j :: 0 <= j < n ==> hs[j].Some?
    ensures n < |hs| ==> hs[n].None?
  {
    if |hs| == 0 || hs[0].None? then 0 else 1 + LiveCount(hs[1..])
  }

  /** An entry the scan acts on: one that contains "If-None-Match: " anywhere. */
  predicate IsConditional(h: Option<string>) {
    h.Some? && Contains(h.value, IF_NONE_MATCH)
  }

  /** The part of a conditional header that is compared: from offset 15 of the header, wherever the name matched. */
  function ConditionalValue(h: Option<string>): (v: string)
    requires IsConditional(h)
    ensures |h.value| >= |IF_NONE_MATCH| && h.value[..|IF_NONE_MATCH|] + v == h.value
  {
    ContainsIsLonger(h.value, IF_NONE_MATCH);
    h.value[|IF_NONE_MATCH|..]
  }

  /** Entry i is conditional and no entry after it, up to n, is. */
  predicate LastConditionalAt(hs: HeaderList, i: nat, n: nat)
    requires i < n <= |hs|
  {
    IsConditional(hs[i]) && forall j :: i < j < n ==> !IsConditional(hs[j])
  }

  /**
   * Among the first n entries, the last conditional one carries exactly `tag`.
   */
  ghost predicate EtagMatchesUpTo(hs: HeaderList, n: nat, tag: string)
    requires n <= |hs|
  {
    exists i: nat :: i < n && LastConditionalAt(hs, i, n) && ConditionalValue(hs[i]) == tag
  }

  /** The request's ETag matches: decided by the last conditional header before the first NULL. */
  ghost predicate EtagMatches(hs: HeaderList, tag: string) {
    EtagMatchesUpTo(hs, LiveCount(hs), tag)
  }

  /** One more entry: a conditional entry decides on its own, any other leaves the verdict alone. */
  lemma EtagMatchesStep(hs: HeaderList, n: nat, tag: string)
    requires n < |hs|
    ensures IsConditional(hs[n]) ==> (EtagMatchesUpTo(hs, n + 1, tag) <==> ConditionalValue(hs[n]) == tag)
    ensures !IsConditional(hs[n]) ==> (EtagMatchesUpTo(hs, n + 1, tag) <==> EtagMatchesUpTo(hs, n, tag))
  {
    if IsConditional(hs[n]) {
      ConditionalEntryDecides(hs, n, tag);
    } else {
      OtherEntryKeepsVerdict(hs, n, tag);
    }
  }

  lemma ConditionalEntryDecides(hs: HeaderList, n: nat, tag: string)
    requires n < |hs| && IsConditional(hs[n])
    ensures EtagMatchesUpTo(hs, n + 1, tag) <==> ConditionalValue(hs[n]) == tag
  {
    if EtagMatchesUpTo(hs, n + 1, tag) {
      var i: nat :| i < n + 1 && LastConditionalAt(hs, i, n + 1) && ConditionalValue(hs[i]) == tag;
      assert i == n;
    }
    if ConditionalValue(hs[n]) == tag {
      assert LastConditionalAt(hs, n, n + 1);
    }
  }

  lemma OtherEntryKeepsVerdict(hs: HeaderList, n: nat, tag: string)
    requires n < |hs| && !IsConditional(hs[n])
    ensures EtagMatchesUpTo(hs, n + 1, tag) <==> EtagMatchesUpTo(hs, n, tag)
  {
    if EtagMatchesUpTo(hs, n + 1, tag) {
      OtherEntryKeepsMatch(hs, n, tag);
    }
    if EtagMatchesUpTo(hs, n, tag) {
      OtherEntryExtendsMatch(hs, n, tag);
    }
  }

  /** A match over n + 1 entries whose last one is not conditional was already a match over n. */
  lemma OtherEntryKeepsMatch(hs: HeaderList, n: nat, tag: string)
    requires n < |hs| && !IsConditional(hs[n]) && EtagMatchesUpTo(hs, n + 1, tag)
    ensures EtagMatchesUpTo(hs, n, tag)
  {
    var i: nat :| i < n + 1 && LastConditionalAt(hs, i, n + 1) && ConditionalValue(hs[i]) == tag;
    assert i < n && LastConditionalAt(hs, i, n);
  }

  /** A match over n entries survives a further entry that is not conditional. */
  lemma OtherEntryExtendsMatch(hs: HeaderList, n: nat, tag: string)
    requires n < |hs| && !IsConditional(hs[n]) && EtagMatchesUpTo(hs, n, tag)
    ensures EtagMatchesUpTo(hs, n + 1, tag)
  {
    var i: nat :| i < n && LastConditionalAt(hs, i, n) && ConditionalValue(hs[i]) == tag;
    LastConditionalExtends(hs, i, n);
  }

  /** The last conditional entry stays last when a non-conditional entry follows. */
  lemma LastConditionalExtends(hs: HeaderList, i: nat, n: nat)
    requires i < n < |hs| && LastConditionalAt(hs, i, n) && !IsConditional(hs[n])
    ensures LastConditionalAt(hs, i, n + 1)
  {
  }

  /**
   * The header loop of http_get: etag_matches starts at -1 and every
   * conditional header overwrites it with strcmp of its value against the
   * ETag; the loop stops at a NULL header or the end of the chain. The C
   * dereferences the first entry unconditionally, so the list is non-empty.
   */
  method ScanHeaders(hs: HeaderList, tag: string) returns (etagMatches: int)
    requires |hs| > 0
    ensures etagMatches == 0 <==> EtagMatches(hs, tag)
  {
    etagMatches := -1;
    var i := 0;
    while i < |hs| && hs[i].Some?
      invariant 0 <= i <= LiveCount(hs)
      invariant etagMatches == 0 <==> EtagMatchesUpTo(hs, i, tag)
      decreases |hs| - i
    {
      EtagMatchesStep(hs, i, tag);
      var h := hs[i].value;
      if Strstr(h, IF_NONE_MATCH).Some? {
        ContainsIsLonger(h, IF_NONE_MATCH);
        etagMatches := Strcmp(h[|IF_NONE_MATCH|..], tag);
      }
      i := i + 1;
    }
  }

  /** Entries after the first NULL header never influence the verdict. */
  lemma {:induction false} NullHeaderEndsScan(prefix: HeaderList, rest1: HeaderList, rest2: HeaderList, tag: string)
    ensures EtagMatches(prefix + [None] + rest1, tag) <==> EtagMatches(prefix + [None] + rest2, tag)
  {
    var a, b := prefix + [None] + rest1, prefix + [None] + rest2;
    LiveCountStopsAtNull(prefix, rest1);
    LiveCountStopsAtNull(prefix, rest2);
    SamePrefixSameVerdict(a, b, LiveCount(a), tag);
  }

  /** The verdict over the first n entries depends on those entries only. */
  lemma SamePrefixSameVerdict(a: HeaderList, b: HeaderList, n: nat, tag: string)
    requires n <= |a| && n <= |b|
    requires forall j :: 0 <= j < n ==> a[j] == b[j]
    ensures EtagMatchesUpTo(a, n, tag) <==> EtagMatchesUpTo(b, n, tag)
  {
    if EtagMatchesUpTo(a, n, tag) {
      var i: nat :| i < n && LastConditionalAt(a, i, n) && ConditionalValue(a[i]) == tag;
      assert LastConditionalAt(b, i, n);
    }
    if EtagMatchesUpTo(b, n, tag) {
      var i: nat :| i < n && LastConditionalAt(b, i, n) && ConditionalValue(b[i]) == tag;
      assert LastConditionalAt(a, i, n);
    }
  }

  lemma {:induction false} LiveCountStopsAtNull(prefix: HeaderList, rest: HeaderList)
    ensures LiveCount(prefix + [None] + rest) == LiveCount(prefix + [None]) <= |prefix|
  {
    if |prefix| > 0 && prefix[0].Some? {
      assert (prefix + [None] + rest)[1..] == prefix[1..] + [None] + rest;
      assert (prefix + [None])[1..] == prefix[1..] + [None];
      LiveCountStopsAtNull(prefix[1..], rest);
    }
  }

  /** When several headers qualify, the last one before the first NULL decides, whatever came earlier. */
  lemma LastConditionalWins(hs: HeaderList, k: nat, tag: string)
    requires k < LiveCount(hs) && IsConditional(hs[k])
    requires forall j :: k < j < LiveCount(hs) ==> !IsConditional(hs[j])
    ensures EtagMatches(hs, tag) <==> ConditionalValue(hs[k]) == tag
  {
    assert LastConditionalAt(hs, k, LiveCount(hs));
    if EtagMatches(hs, tag) {
      var i: nat :| i < LiveCount(hs) && LastConditionalAt(hs, i, LiveCount(hs)) && ConditionalValue(hs[i]) == tag;
      assert i == k;
    }
  }

  const STATUS_304: string := "HTTP/1.1 304 Not Modified\r\n"
  const STATUS_200: string := "HTTP/1.1 200 OK\r\n"
  const CONTENT_TYPE: string := "Content-Type: text/html\r\n"
  const CACHE_CONTROL: string := "Cache-Control: max-age=365, public\r\n"
  const BLANK_LINE: string := "\r\n"

  predicate IsDateLine(line: string) {
    |line| >= 6 && line[..6] == "Date: "
  }

  /** The lines written with s->puts when the client's ETag matched. */
  function NotModifiedHeaders(mtime: int, date: string): (lines: seq<string>)
    ensures |lines| == 4 && lines[0] == STATUS_304 && lines[|lines| - 1] == BLANK_LINE
    ensures lines[1] == EtagHeader(mtime) && lines[2] == DateHeader(date)
  {
    [STATUS_304, EtagHeader(mtime), DateHeader(date), BLANK_LINE]
  }

  /** The lines written with s->puts before the body of a full response. */
  function OkHeaders(mtime: int): (lines: seq<string>)
    ensures |lines| == 5 && lines[0] == STATUS_200 && lines[|lines| - 1] == BLANK_LINE
    ensures lines[1] == CONTENT_TYPE && lines[2] == CACHE_CONTROL && lines[3] == EtagHeader(mtime)
  {
    [STATUS_200, CONTENT_TYPE, CACHE_CONTROL, EtagHeader(mtime), BLANK_LINE]
  }

  /** A line whose first character is not 'D' is no Date line. */
  lemma StartsOtherThanDate(line: string)
    requires |line| > 0 && line[0] != 'D'
    ensures !IsDateLine(line)
  {
    if |line| >= 6 {
      assert line[..6][0] == line[0];
    }
  }

  /**
   * Both responses carry the ETag line and end with the blank line; only the
   * 304 response carries a Date line.
   */
  lemma OnlyNotModifiedCarriesDate(mtime: int, date: string)
    ensures forall i :: 0 <= i < |OkHeaders(mtime)| ==> !IsDateLine(OkHeaders(mtime)[i])
    ensures exists i :: 0 <= i < |NotModifiedHeaders(mtime, date)| && IsDateLine(NotModifiedHeaders(mtime, date)[i])
    ensures EtagHeader(mtime) in OkHeaders(mtime) && EtagHeader(mtime) in NotModifiedHeaders(mtime, date)
    ensures OkHeaders(mtime)[|OkHeaders(mtime)| - 1] == BLANK_LINE
    ensures NotModifiedHeaders(mtime, date)[|NotModifiedHeaders(mtime, date)| - 1] == BLANK_LINE
  {
    StartsOtherThanDate(STATUS_200);
    StartsOtherThanDate(CONTENT_TYPE);
    StartsOtherThanDate(CACHE_CONTROL);
    StartsOtherThanDate(EtagHeader(mtime));
    StartsOtherThanDate(BLANK_LINE);
    assert IsDateLine(NotModifiedHeaders(mtime, date)[2]);
  }
}

=== FILE: mimetype_file.dfy ===
/**
 * The static-file mimetype of the HTTP server (httpd/mimetype_file.c):
 * creating a handler for a path, and http_get on a cache miss. The file
 * system is a map from path to the file's modification time and contents;
 * the client's write and the gmtime/strftime formatting of a time are inputs.
 */
module MimetypeFile {
  import opened Wrappers
  import opened CString
  import opened HttpConditional
  import opened HttpBody

  datatype FileHandler = FileHandler(fullpath: string)

  /** mimetype_file_new: allocation from the pool may fail, giving NULL. */
  function MimetypeFileNew(allocOk: bool, fullpath: string): (r: Option<FileHandler>)
    ensures r.Some? <==> allocOk
    ensures r.Some? ==> r.value.fullpath == fullpath
  {
    if allocOk then Some(FileHandler(fullpath)) else None
  }

  datatype FileData = FileData(mtime: int, contents: string)

  type FileSystem = map<string, FileData>

  /**
   * st_mtime after stat(path): the file's time, or whatever the
   * uninitialised struct held when stat failed (its result is not checked).
   */
  function StatMtime(files: FileSystem, path: string, unsetMtime: int): (mtime: int)
    ensures path in files ==> mtime == files[path].mtime
    ensures path !in files ==> mtime == unsetMtime
  {
    if path in files then files[path].mtime else unsetMtime
  }

  /** What open + read deliver: the contents, or nothing when open fails. */
  function Open(files: FileSystem, path: string): (file: Option<string>)
    ensures file.Some? <==> path in files
    ensures file.Some? ==> file.value == files[path].contents
  {
    if path in files then Some(files[path].contents) else None
  }

  datatype CacheEntry = CacheEntry(path: string, text: Option<string>)

  /**
   * The observable effect of http_get: its return value, the header lines
   * sent with s->puts, the body fragments the client accepted, and the
   * cache_add call, if any.
   */
  datatype GetResult = GetResult(ret: int, lines: seq<string>, body: seq<string>, cacheAdd: Option<CacheEntry>)

  /**
   * http_get on a cache miss; `handler` is None when the mimetype is not a
   * file handler. `formatTime` stands for strftime(gmtime(t)): the Date line
   * carries the file's modification time, not the time of the request.
   */
  method HttpGet(handler: Option<FileHandler>, headers: HeaderList, files: FileSystem,
                 unsetMtime: int, formatTime: int -> string, write: Writer) returns (res: GetResult)
    requires handler.Some? ==> |headers| > 0
    requires WriteMakesProgress(write)
    ensures handler.None? ==> res == GetResult(-1, [], [], None)
    ensures handler.Some? ==> res.ret == 0
    ensures handler.Some? ==>
      var path := RealPath(handler.value.fullpath);
      var mtime := StatMtime(files, path, unsetMtime);
      EtagMatches(headers, EtagValue(mtime)) ==>
        res.lines == NotModifiedHeaders(mtime, formatTime(mtime)) && res.body == [] && res.cacheAdd.None?
    ensures handler.Some? ==>
      var path := RealPath(handler.value.fullpath);
      var mtime := StatMtime(files, path, unsetMtime);
      !EtagMatches(headers, EtagValue(mtime)) ==>
        && res.lines == OkHeaders(mtime)
        && res.body == FileFragments(write, FileBytes(Open(files, path)))
        && Flatten(res.body) == FileBytes(Open(files, path))
        && res.cacheAdd == Some(CacheEntry(path, CacheOf(res.body)))
  {
    if handler.None? {
      return GetResult(-1, [], [], None);
    }
    var path := RealPath(handler.value.fullpath);
    var mtime := StatMtime(files, path, unsetMtime);
    var etagMatches := ScanHeaders(headers, EtagValue(mtime));
    if etagMatches == 0 {
      return GetResult(0, NotModifiedHeaders(mtime, formatTime(mtime)), [], None);
    }
    var sent, cache := SendFile(Open(files, path), write);
    res := GetResult(0, OkHeaders(mtime), sent, Some(CacheEntry(path, cache)));
  }

  /**
   * A request whose only If-None-Match header carries the current ETag
   * matches, so HttpGet answers 304; a request without one does not match,
   * so it gets the whole file.
   */
  lemma ConditionalGetScenario(mtime: int)
    ensures var hs: HeaderList := [Some(IF_NONE_MATCH + EtagValue(mtime)), None];
      EtagMatches(hs, EtagValue(mtime))
    ensures var hs: HeaderList := [Some("Host: localhost"), None];
      !EtagMatches(hs, EtagValue(mtime))
  {
    var tag := EtagValue(mtime);
    var h := IF_NONE_MATCH + tag;
    var hs: HeaderList := [Some(h), None];
    assert OccursAt(h, IF_NONE_MATCH, 0) by { assert h[0..|IF_NONE_MATCH|] == IF_NONE_MATCH; }
    var other: HeaderList := [Some("Host: localhost"), None];
    var host := "Host: localhost";
    assert !OccursAt(host, IF_NONE_MATCH, 0) by { assert host[0..15][0] != IF_NONE_MATCH[0]; }
    assert !IsConditional(other[0]);
  }
}

=== FILE: qfs_registry.dfy ===
/**
 * The global list of qfs_inode objects (linux/fs/qfs.c). qfs_alloc_inode
 * takes an object from the inode slab and links it at the head of the list;
 * qfs_destroy_inode and qfs_evict_inode only log, so nothing is ever unlinked.
 * A node is identified by the address the slab handed out.
 */
module QfsRegistry {
  import opened Wrappers

  type Addr = nat

  /** The list, head first: index 0 is the most recently inserted node. */
  type Registry = seq<Addr>

  datatype Alloc = Alloc(registry: Registry, inode: Option<Addr>)

  /**
   * qfs_alloc_inode: `slab` is what kmem_cache_alloc returned (None for a
   * failed allocation, which makes the call return NULL).
   */
  function AllocInode(reg: Registry, slab: Option<Addr>): (a: Alloc)
    ensures a.inode == slab
    ensures |a.registry| == |reg| + (if a.inode.Some? then 1 else 0)
    ensures a.registry[|a.registry| - |reg|..] == reg
    ensures a.inode.Some? ==> a.registry[0] == a.inode.value
  {
    match slab
    case None => Alloc(reg, None)
    case Some(p) => Alloc([p] + reg, Some(p))
  }

  /** qfs_destroy_inode and qfs_evict_inode alike: both log and return, so the node stays linked. */
  function ReleaseInode(reg: Registry, node: Addr): (r: Registry)
    ensures |r| == |reg| && forall p :: p in reg ==> p in r
  {
    reg
  }

  /** The registry-affecting super operations, as the VFS may call them. */
  datatype Event = AllocEvent(slab: Option<Addr>) | DestroyEvent(node: Addr) | EvictEvent(node: Addr)

  function Step(reg: Registry, e: Event): Registry
  {
    match e
    case AllocEvent(slab) => AllocInode(reg, slab).registry
    case DestroyEvent(n) => ReleaseInode(reg, n)
    case EvictEvent(n) => ReleaseInode(reg, n)
  }

  /** One event links the slab's node at the head when it is a satisfied allocation, and nothing otherwise. */
  lemma StepLinksOnlyAllocs(reg: Registry, e: Event)
    ensures e.AllocEvent? && e.slab.Some? ==> Step(reg, e) == [e.slab.value] + reg
    ensures !(e.AllocEvent? && e.slab.Some?) ==> Step(reg, e) == reg
  {
  }

  /** The registry after the events, applied first to last. */
  function Replay(reg: Registry, es: seq<Event>): Registry
    decreases |es|
  {
    if |es| == 0 then reg else Replay(Step(reg, es[0]), es[1..])
  }

  /** How many of the events were allocations the slab satisfied. */
  function SuccessfulAllocs(es: seq<Event>): nat
    decreases |es|
  {
    if |es| == 0 then 0
    else (if es[0].AllocEvent? && es[0].slab.Some? then 1 else 0) + SuccessfulAllocs(es[1..])
  }

  /**
   * Over any history, the list grows by exactly the number of successful
   * allocations, keeps every node it held as its tail, and every node an
   * allocation handed out is still linked: no path removes from it.
   */
  lemma {:induction false} ReplayOnlyGrows(reg: Registry, es: seq<Event>)
    ensures |Replay(reg, es)| == |reg| + SuccessfulAllocs(es)
    ensures Replay(reg, es)[SuccessfulAllocs(es)..] == reg
    ensures forall i :: 0 <= i < |es| && es[i].AllocEvent? && es[i].slab.Some? ==>
              es[i].slab.value in Replay(reg, es)
    decreases |es|
  {
    if |es| > 0 {
      var next := Step(reg, es[0]);
      StepLinksOnlyAllocs(reg, es[0]);
      ReplayOnlyGrows(next, es[1..]);
      var r := Replay(reg, es);
      assert r == Replay(next, es[1..]);
      var k := SuccessfulAllocs(es[1..]);
      assert r[k..] == next;
      if es[0].AllocEvent? && es[0].slab.Some? {
        assert r[k + 1..] == next[1..];
        assert next[1..] == reg;
        assert r[k] == next[0];
      }
      forall i | 0 <= i < |es| && es[i].AllocEvent? && es[i].slab.Some?
        ensures es[i].slab.value in r
      {
        if i == 0 {
          assert next[0] == es[0].slab.value;
          assert r[k] == next[0];
        } else {
          assert es[1..][i - 1] == es[i];
        }
      }
    }
  }
}

=== FILE: qfs_super.dfy ===
/**
 * Mounting QFS (linux/fs/qfs.c): the device open mode, the ordered
 * validation chain of qfs_mount, superblock and root-inode setup, the MOUNT
 * handshake over QRPC, and qfs_statfs. Every kernel service the mount path
 * calls is an oracle field of Kernel; every panic is a MountError.
 */
module QfsSuper {
  import opened Wrappers
  import opened Qrpc
  import opened QfsRegistry

  // Mount flag and open-mode bits, as the Linux headers define them.
  const MS_RDONLY: bv32 := 0x1
  const FMODE_READ: bv32 := 0x1
  const FMODE_WRITE: bv32 := 0x2
  const FMODE_EXCL: bv32 := 0x80

  const QFS_BLOCKSIZE: nat := 2048
  const QFS_BLOCKSIZE_BITS: nat := 11
  const QFS_NAMELEN: nat := 255
  /** S_IFDIR, octal 040000. */
  const S_IFDIR: nat := 0x4000
  const ROOT_INO: nat := 1

  /** The device open mode qfs_mount asks for. */
  function OpenMode(flags: bv32): (mode: bv32)
    ensures mode & FMODE_READ == FMODE_READ
    ensures mode & FMODE_EXCL == FMODE_EXCL
    ensures mode & FMODE_WRITE == FMODE_WRITE <==> flags & MS_RDONLY == 0
    ensures mode & !(FMODE_READ | FMODE_WRITE | FMODE_EXCL) == 0
  {
    var mode := FMODE_READ | FMODE_EXCL;
    if flags & MS_RDONLY == 0 then mode | FMODE_WRITE else mode
  }

  function Pow2(n: nat): (p: nat)
    ensures p >= 1
  {
    if n == 0 then 1 else 2 * Pow2(n - 1)
  }

  function Pow256(n: nat): (p: nat)
    ensures p >= 1
  {
    if n == 0 then 1 else 256 * Pow256(n - 1)
  }

  /** The integer a little-endian machine reads from the bytes, lowest address first. */
  function LoadLE(bs: seq<byte>): (v: nat)
    ensures v < Pow256(|bs|)
  {
    if |bs| == 0 then 0 else bs[0] + 256 * LoadLE(bs[1..])
  }

  /** The n bytes a little-endian machine stores for v. */
  function StoreLE(v: nat, n: nat): (bs: seq<byte>)
    ensures |bs| == n
  {
    if n == 0 then [] else [v % 256] + StoreLE(v / 256, n - 1)
  }

  lemma {:induction false} StoreLoad(bs: seq<byte>)
    ensures StoreLE(LoadLE(bs), |bs|) == bs
  {
    if |bs| > 0 {
      var rest := LoadLE(bs[1..]);
      StoreLoad(bs[1..]);
      assert (bs[0] + 256 * rest) % 256 == bs[0];
      assert (bs[0] + 256 * rest) / 256 == rest;
    }
  }

  lemma {:induction false} LoadStore(v: nat, n: nat)
    requires v < Pow256(n)
    ensures LoadLE(StoreLE(v, n)) == v
  {
    if n > 0 {
      LoadStore(v / 256, n - 1);
      var s := StoreLE(v, n);
      assert s[1..] == StoreLE(v / 256, n - 1);
    }
  }

  /** The bytes of an ASCII string literal. */
  function Ascii(s: string): (bs: seq<byte>)
    requires forall i :: 0 <= i < |s| ==> s[i] as int < 256
    ensures |bs| == |s|
    ensures forall i :: 0 <= i < |s| ==> bs[i] == s[i] as int
  {
    if |s| == 0 then [] else [s[0] as int] + Ascii(s[1..])
  }

  /** s_magic: the first int of the string "QRFS", read in native (little-endian) order. */
  const QFS_MAGIC: nat := LoadLE(Ascii("QRFS"))

  /** The magic stored back in memory spells "QRFS"; numerically it is 0x53465251. */
  lemma MagicSpellsQrfs()
    ensures StoreLE(QFS_MAGIC, 4) == Ascii("QRFS")
    ensures QFS_MAGIC == 0x53465251
  {
    StoreLoad(Ascii("QRFS"));
  }

  datatype BlockDevice = BlockDevice(dev: nat)

  /** Which file_operations table an inode was given. */
  datatype FileOps = DirOperations | FileOperations

  datatype Inode = Inode(addr: Addr, ino: nat, mode: nat, fileOps: FileOps)

  datatype SuperBlock = SuperBlock(blocksize: nat, blocksizeBits: nat, magic: nat, root: Option<Inode>)

  /** A superblock as sget allocates it: nothing set yet, no root. */
  const FRESH_SUPER := SuperBlock(0, 0, 0, None)

  /** The kernel services qfs_mount calls, as oracles. */
  datatype Kernel = Kernel(
    blkdevGetByPath: (string, bv32) -> Option<BlockDevice>,  // blkdev_get_by_path; None = IS_ERR
    qrpcCheckBdev: BlockDevice -> bool,                      // qrpc_check_bdev
    kmallocOk: bool,                                         // kmalloc of qfs_super_info
    liveSupers: seq<SuperBlock>,                             // superblocks of this type sget scans
    setSuperOk: bool,                                        // allocation and set_anon_super in sget
    inodeSlab: Option<Addr>,                                 // kmem_cache_alloc for the root inode
    qrpcTransfer: (BlockDevice, Wire) -> Wire,               // the peer rewrites the frame in place
    frameGarbage: Payload)                                   // the uninitialised payload of the frame on the stack

  /**
   * sget with qfs_test_super, which accepts every superblock: the first live
   * QFS superblock is returned whatever device it belongs to; only when none
   * exists is a fresh one set up.
   */
  function Sget(live: seq<SuperBlock>, setSuperOk: bool): (r: Option<SuperBlock>)
    ensures |live| > 0 ==> r == Some(live[0])
    ensures |live| == 0 ==> (r.Some? <==> setSuperOk) && (r.Some? ==> r.value.root.None?)
  {
    if |live| > 0 then Some(live[0])
    else if setSuperOk then Some(FRESH_SUPER)
    else None
  }

  datatype MountError =
    | BadDevicePath         // panic("IS_ERR(bdev)")
    | NotQrpcDevice         // panic("Not QRPC block device")
    | SuperInfoAllocFailed  // panic("Unable to allocate qs")
    | SgetFailed            // panic("IS_ERR(sb)")
    | SuperblockReused      // panic("reuse")
    | RootInodeAllocFailed  // iget_locked returned NULL (unchecked in the C)
    | HandshakeFailed       // panic("QRPC mount failed!")

  datatype Mounted = Mounted(bdev: BlockDevice, mode: bv32, sb: SuperBlock, root: Inode, registry: Registry, reply: Frame)

  /**
   * The frame the peer leaves behind after the MOUNT request: qrpc_transfer
   * sends the packed request and reads the peer's bytes back into the same
   * struct, so the reply is the frame whose packing is what the peer wrote.
   */
  function MountReply(k: Kernel, bdev: BlockDevice): (reply: Frame)
    ensures Encode(reply) == k.qrpcTransfer(bdev, Encode(MountRequest(k.frameGarbage)))
  {
    DecodeEncode(MountRequest(k.frameGarbage));
    Decode(k.qrpcTransfer(bdev, Encode(MountRequest(k.frameGarbage)))).value
  }

  /** qfs_mount: `reg` is the inode list before the call. */
  function Mount(k: Kernel, flags: bv32, devName: string, reg: Registry): (r: Result<Mounted, MountError>)
    // the checks, in order; the first one that fails decides the error
    ensures var bdev := k.blkdevGetByPath(devName, OpenMode(flags));
      && (r == Failure(BadDevicePath) <==> bdev.None?)
      && (r == Failure(NotQrpcDevice) <==> bdev.Some? && !k.qrpcCheckBdev(bdev.value))
      && (r == Failure(SuperInfoAllocFailed) <==>
            bdev.Some? && k.qrpcCheckBdev(bdev.value) && !k.kmallocOk)
      && (r == Failure(SgetFailed) <==>
            bdev.Some? && k.qrpcCheckBdev(bdev.value) && k.kmallocOk
            && Sget(k.liveSupers, k.setSuperOk).None?)
      && (r == Failure(SuperblockReused) <==>
            bdev.Some? && k.qrpcCheckBdev(bdev.value) && k.kmallocOk
            && Sget(k.liveSupers, k.setSuperOk).Some? && Sget(k.liveSupers, k.setSuperOk).value.root.Some?)
    // past the checks: the root inode allocation, then the MOUNT handshake
    ensures var bdev := k.blkdevGetByPath(devName, OpenMode(flags));
      var sb := Sget(k.liveSupers, k.setSuperOk);
      var checked := bdev.Some? && k.qrpcCheckBdev(bdev.value) && k.kmallocOk && sb.Some? && sb.value.root.None?;
      && (r == Failure(RootInodeAllocFailed) <==> checked && k.inodeSlab.None?)
      && (r == Failure(HandshakeFailed) <==>
            checked && k.inodeSlab.Some? && MountReply(k, bdev.value).ret != RET_OK)
    // a mount succeeds exactly when every check passes and the peer answers OK
    ensures r.Success? <==>
      var bdev := k.blkdevGetByPath(devName, OpenMode(flags));
      var sb := Sget(k.liveSupers, k.setSuperOk);
      && bdev.Some? && k.qrpcCheckBdev(bdev.value) && k.kmallocOk
      && sb.Some? && sb.value.root.None? && k.inodeSlab.Some?
      && MountReply(k, bdev.value).ret == RET_OK
    ensures r.Success? ==>
      var m := r.value;
      && m.bdev == k.blkdevGetByPath(devName, OpenMode(flags)).value
      && m.mode == OpenMode(flags)
      && m.sb.blocksize == QFS_BLOCKSIZE == Pow2(m.sb.blocksizeBits)
      && m.sb.magic == QFS_MAGIC
      && m.sb.root == Some(m.root)
      && m.root.addr == k.inodeSlab.value
      && m.root.ino == ROOT_INO && m.root.mode == S_IFDIR && m.root.fileOps == FileOperations
      && m.registry == [m.root.addr] + reg
      && m.reply == MountReply(k, m.bdev) && m.reply.ret == RET_OK
  {
    var mode := OpenMode(flags);
    var bdev := k.blkdevGetByPath(devName, mode);
    if bdev.None? then Failure(BadDevicePath)
    else if !k.qrpcCheckBdev(bdev.value) then Failure(NotQrpcDevice)
    else if !k.kmallocOk then Failure(SuperInfoAllocFailed)
    else
      var sb := Sget(k.liveSupers, k.setSuperOk);
      if sb.None? then Failure(SgetFailed)
      else if sb.value.root.Some? then Failure(SuperblockReused)
      else
        // iget_locked(sb, 1) allocates the root through qfs_alloc_inode
        var alloc := AllocInode(reg, k.inodeSlab);
        if alloc.inode.None? then Failure(RootInodeAllocFailed)
        else
          var root := Inode(alloc.inode.value, ROOT_INO, S_IFDIR, FileOperations);
          var sb' := sb.value.(blocksize := QFS_BLOCKSIZE, blocksizeBits := QFS_BLOCKSIZE_BITS,
                               magic := QFS_MAGIC, root := Some(root));
          var reply := MountReply(k, bdev.value);
          if reply.ret != RET_OK then Failure(HandshakeFailed)
          else Success(Mounted(bdev.value, mode, sb', root, alloc.registry, reply))
  }

  /** A peer that leaves the ret byte untouched never lets a mount through: ret stays ERR. */
  lemma SilentPeerFailsMount(k: Kernel, flags: bv32, devName: string, reg: Registry)
    requires forall b, w :: k.qrpcTransfer(b, w)[1] == w[1]
    ensures Mount(k, flags, devName, reg).Failure?
  {
    var bdev := k.blkdevGetByPath(devName, OpenMode(flags));
    if bdev.Some? {
      var reply := MountReply(k, bdev.value);
      assert Encode(reply)[1] == Encode(MountRequest(k.frameGarbage))[1];
    }
  }

  /**
   * While a mounted QFS superblock is live, a second mount fails, whatever
   * device and flags it names and however the peer answers.
   */
  lemma SecondMountRejected(k1: Kernel, flags1: bv32, dev1: string, reg1: Registry,
                            k2: Kernel, flags2: bv32, dev2: string, reg2: Registry)
    requires Mount(k1, flags1, dev1, reg1).Success?
    requires |k2.liveSupers| > 0 && k2.liveSupers[0] == Mount(k1, flags1, dev1, reg1).value.sb
    ensures Mount(k2, flags2, dev2, reg2).Failure?
    ensures k2.blkdevGetByPath(dev2, OpenMode(flags2)).Some?
            && k2.qrpcCheckBdev(k2.blkdevGetByPath(dev2, OpenMode(flags2)).value) && k2.kmallocOk
            ==> Mount(k2, flags2, dev2, reg2) == Failure(SuperblockReused)
  {
  }

  datatype KStatfs = KStatfs(fType: nat, bsize: nat, namelen: nat, blocks: nat, bavail: nat, bfree: nat)

  /** qfs_statfs: only f_type comes from the superblock; the rest are fixed. */
  function Statfs(sb: SuperBlock): (buf: KStatfs)
    ensures buf.fType == sb.magic
    ensures buf.bsize == QFS_BLOCKSIZE
    ensures buf.blocks == 1 && buf.bfree == 0 && buf.bavail == 0
    ensures buf.namelen == QFS_NAMELEN
  {
    KStatfs(sb.magic, 2048, 255, 1, 0, 0)
  }

  /** On a mounted QFS, statfs reports the QFS magic and the superblock's own block size, with nothing free. */
  lemma StatfsOfMountedQfs(k: Kernel, flags: bv32, devName: string, reg: Registry)
    requires Mount(k, flags, devName, reg).Success?
    ensures var sb := Mount(k, flags, devName, reg).value.sb;
      && Statfs(sb).fType == QFS_MAGIC == 0x53465251
      && Statfs(sb).bsize == sb.blocksize
      && Statfs(sb).blocks == 1 && Statfs(sb).bfree == 0 && Statfs(sb).bavail == 0
  {
    MagicSpellsQrfs();
  }
}

=== FILE: qrpc.dfy ===
/**
 * The QRPC command frame exchanged with the hypervisor-side filesystem
 * (linux/fs/qfs.c). The frame is a packed C struct: one command byte, one
 * return byte, then a fixed 1024-byte payload, handed byte-for-byte to the
 * block device. Encode/Decode model that packed layout.
 */
module Qrpc {
  import opened Wrappers

  type byte = b: int | 0 <= b < 256

  const CMD_INIT: byte := 0
  const CMD_MOUNT: byte := 1
  const CMD_UMOUNT: byte := 2

  const RET_OK: byte := 0
  const RET_ERR: byte := 1

  const DATA_SIZE: nat := 1024
  /** sizeof(struct qrpc_frame): the struct is packed, so no padding. */
  const FRAME_SIZE: nat := 1 + 1 + DATA_SIZE

  /** The payload area: always exactly DATA_SIZE bytes. */
  type Payload = s: seq<byte> | |s| == DATA_SIZE witness seq(DATA_SIZE, _ => 0)

  /** A frame as it travels over the block device: exactly FRAME_SIZE bytes. */
  type Wire = s: seq<byte> | |s| == FRAME_SIZE witness seq(FRAME_SIZE, _ => 0)

  datatype Frame = Frame(cmd: byte, ret: byte, data: Payload)

  /** The bytes of the packed struct, in memory order. */
  function Encode(f: Frame): (w: Wire)
    ensures |w| == 1026
    ensures w[0] == f.cmd && w[1] == f.ret
    ensures forall i :: 0 <= i < DATA_SIZE ==> w[2 + i] == f.data[i]
  {
    [f.cmd, f.ret] + f.data
  }

  /** Reads a frame back from raw bytes; anything but FRAME_SIZE bytes is not a frame. */
  function Decode(bs: seq<byte>): (r: Option<Frame>)
    ensures r.Some? <==> |bs| == FRAME_SIZE
    ensures r.Some? ==> Encode(r.value) == bs
  {
    if |bs| != FRAME_SIZE then None
    else Some(Frame(bs[0], bs[1], bs[2..]))
  }

  /** Encoding loses nothing: the peer sees exactly the fields that were set. */
  lemma DecodeEncode(f: Frame)
    ensures Decode(Encode(f)) == Some(f)
  {
    var w := Encode(f);
    assert w[2..] == f.data;
  }

  /** The request the mount path sends: MOUNT, with ret pre-set to ERR. */
  function MountRequest(data: Payload): (f: Frame)
    ensures Encode(f)[0] == 1 && Encode(f)[1] == 1
    ensures f.ret != RET_OK
    ensures f.data == data
  {
    Frame(CMD_MOUNT, RET_ERR, data)
  }
}

=== FILE: wrappers.dfy ===
/** The optional-value and outcome types shared by the QFS and HTTP models. */
module Wrappers {

  /** A value that may be absent: the model of a C pointer that may be NULL. */
  datatype Option<+T> = None | Some(value: T)

  /** The outcome of an operation that either produces a value or fails with an error. */
  datatype Result<+R, +E> = Success(value: R) | Failure(error: E)
}
